=== FILE: README.md ===
# Electronics calculator: a Dafny model of its core

The electronics calculator is a small Tkinter desktop application. It has
three forms:

- **parallel resistance** and **series capacitance**: a growing table of
  values. The result is `1 / (1/x1 + 1/x2 + ...)` over the entries that are
  strictly positive.
- **RC frequency**: relates resistance, capacitance and frequency by
  `F = 1 / (2 pi R C)`. It solves for whichever of the three is selected.

Every quantity is a prefixed number. It holds a display value and one of eight
SI prefixes (pico to giga), and it converts to and from the absolute,
unprefixed value. Every value box is a number box. Its validation command
filters keystrokes against a numeric grammar, a maximum and a decimal
precision. It checks the finished text against a minimum when the box loses
focus.

The model has seven modules:

- `Wrappers`: `Option` and `Result`.
- `PowersOfTen`: `10^e` over the reals.
- `Variables`: the prefixed number, `PrefixNumberVar`.
- `InvertedSums`: the reciprocal sum, the value table and its recalculation.
- `RCFrequency`: the RC form's state machine and its Calculate button.
- `Decimals`: the part of Python's `decimal` that the number box uses. This is
  parsing of texts over `-0123456789.` and `normalize()`.
- `Widgets`: the number box's bounds, its keystroke and focus-out checks, and
  the validation dispatch.

How the model represents the program:

- **Floats.** Python floats are modelled as exact reals.
- **Pi.** It is a positive constant whose value the proofs do not need.
- **Exceptions.** An exception becomes a `Failure` or `None`. The Decimal
  conversion that raises inside the keystroke check is the verdict `Raise`.
- **Errors in callbacks.** An exception raised inside a Tk callback ends that
  callback. So a failed recalculation leaves the table as it was at the point
  of the raise.
- **Cell contents.** The text in a Tcl variable is one of three things: a
  number, the empty text (which `get` reads as 0), or any other text (which
  `get` re-raises as an error).

Some behaviour of the code is worth stating directly:

- **When the RC form computes.** The form solves only when the Calculate
  button is pressed. It does not solve on every change of an input or of the
  selection.
- **Division by zero in the RC form.** The zero case shows the message
  "Error: Values used for calculation cannot be zero." and leaves R, C and F
  unchanged.
- **Unknown prefixes.** A prefix outside the table is not prevented when a
  variable is built. So reading or writing the absolute value of such a
  variable fails with `UnknownPrefix`, which is the `KeyError` of the table
  lookup.
- **Focus-out check.** It checks only that the text is a number and the
  minimum. It does not check the maximum.

## Model

| member | source | states |
|---|---|---|
| Variables.PrefixTable | electronics_calculator/variables.py:8-17 | the table has exactly the eight prefixes pico, nano, micro, milli, none, kilo, mega and giga, and every scale is positive |
| Variables.PrefixScales | electronics_calculator/variables.py:8-17 | the scales are 10^-12, 10^-9, 10^-6, 10^-3, 1, 10^3, 10^6 and 10^9 in that order |
| Variables.Get | electronics_calculator/variables.py:23-30 | a number reads as itself, an empty entry reads as 0, and any other text fails with the re-raised error |
| Variables.Set | electronics_calculator/variables.py:32-40 | fails with InvalidPrefix exactly when a given prefix is not in the table; otherwise reading back gives the stored value, and the prefix is the given one or the old one when none is given |
| Variables.GetAbsolute | electronics_calculator/variables.py:42-44 | succeeds exactly when the content is readable and the prefix is in the table, with display value times scale; the failure is NotAFloat or UnknownPrefix |
| Variables.SetAbsolute | electronics_calculator/variables.py:46-50 | succeeds exactly when the prefix is in the table; keeps the prefix; reading the absolute value back returns exactly the value written |
| Variables.SetThenGetAbsolute | electronics_calculator/variables.py:32-44 | setting a display value with a valid prefix gives an absolute value equal to that value times the prefix's scale |
| Variables.AbsoluteRoundTrip | electronics_calculator/variables.py:42-50 | writing back the absolute value just read changes neither the absolute value nor the prefix |
| InvertedSums.Positives | electronics_calculator/inverted_sums_widget.py:67-71 | the values that take part are all positive, and a value takes part exactly when it is an entry and greater than zero |
| InvertedSums.PositivesCount | electronics_calculator/inverted_sums_widget.py:67-71 | each positive value takes part as many times as it is entered; zero and negative values never take part |
| InvertedSums.ReciprocalSum | electronics_calculator/inverted_sums_widget.py:64-81 | the result is never negative; it is zero exactly when no entry is positive; otherwise the result times the sum of reciprocals of the positive entries is 1 |
| InvertedSums.ReciprocalSumAtMostSmallest | electronics_calculator/inverted_sums_widget.py:78-81 | with any positive entry, the result is positive and no larger than any positive entry (resistors in parallel are below the smallest one) |
| InvertedSums.SumPermutation | electronics_calculator/inverted_sums_widget.py:79 | the sum of reciprocals of the values is the same in any order |
| InvertedSums.OrderIndependent | electronics_calculator/inverted_sums_widget.py:64-81 | entries that are a rearrangement of each other give the same result |
| InvertedSums.NonPositiveIgnored | electronics_calculator/inverted_sums_widget.py:66-71 | inserting a zero or negative entry at any position leaves the result unchanged |
| InvertedSums.SingleEntry | electronics_calculator/inverted_sums_widget.py:78-81 | a single positive entry is its own result |
| InvertedSums.EqualEntries | electronics_calculator/inverted_sums_widget.py:78-81 | n equal positive entries v give v / n |
| InvertedSums.Examples | electronics_calculator/inverted_sums_widget.py:64-81 | two 2000-ohm resistors give 1000 ohm; three zero entries give 0 |
| InvertedSums.AbsoluteValues | electronics_calculator/inverted_sums_widget.py:67-71 | the rows' absolute values are read in row order; this succeeds exactly when every row is readable, and then entry i is row i's absolute value |
| InvertedSums.Calculate | electronics_calculator/inverted_sums_widget.py:64-81 | succeeds exactly when every row and the result's prefix can be read; keeps the rows, the default prefix and the result's prefix; afterwards the result's absolute value is the reciprocal sum of the rows |
| InvertedSums.Recalculate | electronics_calculator/inverted_sums_widget.py:61-62 | a traced write recalculates; when the calculation raises, the table stays exactly as it was |
| InvertedSums.NewRow | electronics_calculator/inverted_sums_widget.py:49-53 | a new row has the default prefix and absolute value 0 |
| InvertedSums.FormsAsBuilt | electronics_calculator/parallel_resistance.py:10 | the parallel-resistance form counts in kilo-ohms and the series-capacitance form (series_capacitance.py line 8) in nanofarads; both are table prefixes, and each form's result starts at 0 in that prefix |
| InvertedSums.NewForm | electronics_calculator/inverted_sums_widget.py:104-111 | a new form has three zero rows and a zero result, all in the default prefix, and the result already agrees with the rows |
| InvertedSums.AddRow | electronics_calculator/inverted_sums_widget.py:49-62 | "More" appends one zero row in the default prefix, keeps the earlier rows, and does not recalculate |
| InvertedSums.AddRowKeepsResult | electronics_calculator/inverted_sums_widget.py:49-62 | when the result agreed with the rows, it still agrees after a row is added, although nothing is recalculated |
| InvertedSums.EditRow | electronics_calculator/inverted_sums_widget.py:61 | editing row i changes only row i's content; when every row is readable the result then agrees with the rows, and otherwise the result is unchanged |
| InvertedSums.SetRowPrefix | electronics_calculator/inverted_sums_widget.py:58-62 | choosing a prefix for row i changes only that row's prefix; the result then agrees with the rows when they are readable, and is unchanged otherwise |
| InvertedSums.SetResultPrefix | electronics_calculator/inverted_sums_widget.py:20 | choosing the result's prefix recalculates the result in the new units; when a row cannot be read the recalculation raises, so the result keeps its display value under the new prefix and its absolute value changes |
| InvertedSums.ResultPrefixWithUnreadableRow | electronics_calculator/inverted_sums_widget.py:20 | with an unreadable row, switching a result of 1.0 kilo-ohm to mega turns 1000 ohm into 1000000 ohm |
| InvertedSums.ResultPrefixKeepsValue | electronics_calculator/inverted_sums_widget.py:20 | changing the result's prefix leaves its absolute value unchanged |
| RCFrequency.Operands | electronics_calculator/rc_frequency_form.py:100-109 | the two known quantities are the two that are not selected, taken in the order R, C, F |
| RCFrequency.Solve | electronics_calculator/rc_frequency_form.py:110-114 | there is no solution exactly when one of the known values is zero; otherwise the solution times 2·pi·a·b is 1 |
| RCFrequency.TryCalculation | electronics_calculator/rc_frequency_form.py:94-117 | Calculate keeps the selection and the box states, never changes a non-selected quantity, and leaves either no error or the zero-division message; when a known quantity cannot be read or has an unknown prefix (the raise at line 109) the form is only cleared of its error, and when the selected quantity's prefix is unknown (the raise at line 117) it is not written |
| RCFrequency.TryCalculationError | electronics_calculator/rc_frequency_form.py:109-114 | the zero-division message appears exactly when both known quantities are readable and one of them is zero |
| RCFrequency.TryCalculationErrorChangesNothing | electronics_calculator/rc_frequency_form.py:112-114 | when the message appears, none of R, C and F changes |
| RCFrequency.TryCalculationSolves | electronics_calculator/rc_frequency_form.py:109-117 | with non-zero known values a and b, the error is cleared, the selected quantity keeps its prefix, and its absolute value becomes 1/(2·pi·a·b) |
| RCFrequency.SolveRoundTrip | electronics_calculator/rc_frequency_form.py:94-135 | solving F from positive R and C, then selecting R and solving again, gives back the original resistance |
| RCFrequency.Examples | electronics_calculator/rc_frequency_form.py:111 | 1 kOhm with 1 uF gives 500/pi Hz; 1 kHz with 1 nF gives 500000/pi ohm |
| RCFrequency.Select | electronics_calculator/rc_frequency_form.py:127-135 | selecting k disables exactly k's box and enables the other two; the quantities and the error text are untouched |
| RCFrequency.Initial | electronics_calculator/rc_frequency_form.py:15-66 | the form starts with F selected and its box disabled, zero values in kilo, nano and no prefix, and no error |
| RCFrequency.Reset | electronics_calculator/rc_frequency_form.py:120-125 | reset zeroes R, C and F with prefixes kilo, nano and none; the selection, the box states and the error are untouched |
| Decimals.Parse | electronics_calculator/widgets.py:109 | Decimal of a text over "-0123456789.": "" and "-" are not numbers; a number's sign is its leading minus and its exponent is never positive (their exact values are given by ParseRender) |
| Decimals.ParseWellFormed | electronics_calculator/widgets.py:109-110 | a text over "-0123456789." converts to a Decimal exactly when it has a minus only in front, at most one point, and some digit |
| Decimals.ParseRender | electronics_calculator/widgets.py:109-110 | a written number converts back to its sign, its digits as the coefficient, and minus its fraction-digit count as the exponent |
| Decimals.Normalize | electronics_calculator/widgets.py:83 | normalize keeps the sign, keeps zero and non-zero apart, never lowers a non-zero exponent, and leaves a non-zero coefficient without a trailing zero (NormalizeSound adds that the value is kept) |
| Decimals.NormalizeSound | electronics_calculator/widgets.py:82-83 | normalize keeps the value, maps zero to exponent 0, and otherwise leaves no trailing zero |
| Decimals.NormalizedExponentWhole | electronics_calculator/widgets.py:82-83 | the normalized exponent is non-negative exactly when the decimal is a whole number |
| Widgets.NewNumberbox | electronics_calculator/widgets.py:77-83 | the bounds are the given ones; the precision is non-negative exactly when the increment, by default 1.0, is whole; for a non-zero increment the increment times 10^-precision is whole and times 10^(-precision-1) it is not, so the precision is minus the number of decimal places of a fractional increment and the number of trailing zeros of a whole one; a zero increment gives precision 0 |
| Widgets.IncrementTenRefusesDigits | electronics_calculator/widgets.py:83 | increment 10 gives precision 1, and then line 114 refuses even a typed "50" |
| Decimals.NormalizeShift | electronics_calculator/widgets.py:83 | scaling a non-zero decimal by 10^k raises its normalized exponent by exactly k |
| Decimals.DecimalPlaces | electronics_calculator/widgets.py:83 | for a non-zero decimal with normalized exponent e, the decimal times 10^-e is whole and times 10^(-e-1) it is not |
| Widgets.BoxesOfTheForms | electronics_calculator/rc_frequency_form.py:79-84 | the value boxes (from_=0, increment=.01) forbid a minus sign and allow two decimal places; the answer box has no bounds and precision 0 |
| Widgets.KeyValidate | electronics_calculator/widgets.py:85-118 | deletions pass; a keystroke the filter refuses is rejected; otherwise the result is accepted exactly when it is a partial text or a number within the maximum and the precision |
| Widgets.KeyValidateRaises | electronics_calculator/widgets.py:104-110 | for proposed texts over "-0123456789.", the check raises exactly when a keystroke passes the filter and proposes a text that is neither "", "-", ".", "-." nor a well-formed number |
| Widgets.PartialTexts | electronics_calculator/widgets.py:104-105 | the texts that are let through unparsed are exactly "", "-", "." and "-." |
| Widgets.SingleKeyChars | electronics_calculator/widgets.py:95-97 | a single typed character passes the first test exactly when it is one of "-1234567890." |
| Widgets.FractionDigitsLimit | electronics_calculator/widgets.py:109-116 | a typed number with a point is accepted exactly when its fraction digits number at most minus the precision and it does not exceed the maximum |
| Widgets.EntryBoxTwoPlaces | electronics_calculator/widgets.py:112-116 | in a form's value box a typed digit is accepted exactly when the number has at most two fraction digits |
| Widgets.EntryBoxAcceptsCents | electronics_calculator/widgets.py:112-116 | "12.34" is accepted as its last digit is typed |
| Widgets.EntryBoxRefusesThirdPlace | electronics_calculator/widgets.py:112-116 | "12.345" is refused as its last digit is typed |
| Widgets.EntryBoxRefusesMinus | electronics_calculator/widgets.py:88-100 | a form's value box refuses a typed minus sign wherever it is typed |
| Widgets.EntryBoxRefusesSecondPoint | electronics_calculator/widgets.py:89-100 | a second decimal point is refused |
| Widgets.FocusOutValidate | electronics_calculator/widgets.py:120-132 | leaving the box succeeds exactly when there is no error; "Invalid number string" exactly when the text is not a number; "too low" exactly when the number is below the minimum |
| Widgets.FocusOutIgnoresMax | electronics_calculator/widgets.py:120-132 | the focus-out check does not depend on the maximum |
| Widgets.Validate | electronics_calculator/widgets.py:25-71 | with the corrected keystroke check, validation never raises; only a focus-out leaves an error text; key and focus-out events go to their checks, and others are accepted; the box turns red exactly on a refused focus-out |
| Widgets.NegativePasteAccepted | electronics_calculator/widgets.py:95-100 | as written, a box with minimum 0 accepts "-1" pasted into an empty box; the corrected check refuses it |
| Widgets.MinusPasteRaises | electronics_calculator/widgets.py:95-110 | as written, pasting "-1" after the "5" of a value box (from_=0, increment=.01) proposes "5-1", which passes the filter and makes the Decimal conversion raise; the corrected check refuses it |
| Widgets.KeyValidateCorrected | electronics_calculator/widgets.py:85-118 | the corrected keystroke check never raises, refuses any insertion containing a minus where negatives are forbidden, and accepts only partial texts or numbers within the bounds |
| Widgets.CorrectedKeepsSignOut | electronics_calculator/widgets.py:88-100 | with the corrected check, a box whose minimum is at least 0 never gains a minus sign by an insertion |
| Widgets.CorrectedAgreesOnSingleKeys | electronics_calculator/widgets.py:85-118 | for a single typed character the corrected check gives the original's verdict whenever the original does not raise |

## Left out

- Tk layout, labels, scroll bars, option menus and the main window are not
  modelled. Neither are `application.py` and `setup.py`. None of these
  compute anything.
- Float rounding is left out. Python floats are modelled as exact reals, so
  the round trip of `set_absolute` and the order independence of the sum
  hold exactly in the model. With floats they hold only up to rounding.
- Float overflow to infinity is left out.
- Decimal's other texts are treated as conversion failures. These include
  exponents such as "1e5", surrounding whitespace, "Infinity" and "NaN".
  The keystroke filter looks only at the inserted text, not the box's current
  text. A box's text is also written by `set` and `set_absolute`, and Tcl
  writes very small or very large floats in exponent form. For example, C
  solved from R = 10000 kilo-ohm and F = 1000000 Hz is shown in nanofarads
  as "1.5915494309189535e-05".
- Widgets.FocusOutValidate: reports "Invalid number string" for a text in
  exponent form, where Decimal accepts it and the program checks it against
  the minimum.
- Widgets.KeyValidateRaises: also reports `Raise` for a proposed text in
  exponent form, which Decimal parses; the lemma is exact only for texts
  over "-0123456789.", for the reason on the next line.
- Widgets.KeyValidate: a keystroke into a box holding a text in exponent
  form gives `Raise` in the model, where Decimal parses the proposed text
  and the program accepts or rejects it.
- The bounds of a number box that come from the defaults "-Infinity" and
  "Infinity" are represented as absent bounds, not as Decimal infinities.
- Decimal context rounding to 28 significant digits is left out. `normalize`
  does this, and the increments used here are far shorter.
- Decimals.NormalizeSound: does not state the 28-digit rounding, for the
  reason above.
- The "Value is too low (min …)" message is kept as `TooLow(min)`. It is not
  formatted with Decimal's `str`.
- Tk's own handling of a validation command that raises is left out. Tk
  switches validation off after such an error. The as-written check reports
  this case as the verdict `Raise`.
- The debugging `print` of the selected role in `try_calculation` is left out.
- The type check in `input_row` is left out. It raises `TypeError` for a
  non-prefixed variable, and every call passes a prefixed one.
- Widgets.Validate: sends keystrokes to the corrected check (see Findings).
  `Widgets.KeyValidate` keeps the code as written.

## Findings

| source | as written | input that shows it | evidently intended | confidence | as-written member | corrected member |
|---|---|---|---|---|---|---|
| electronics_calculator/widgets.py:95-100 | the minus-sign rule applies only when the inserted text is exactly "-", so an insertion of several characters that contains a minus is not checked against the minimum | pasting "-1" at position 0 into an empty value box (from_=0) is accepted and gives -1 | any insertion containing a minus is refused where negatives are forbidden, and only at the front | high (not executed) | Widgets.NegativePasteAccepted | Widgets.KeyValidateCorrected |
| electronics_calculator/widgets.py:95-110 | `char in '-1234567890.'` is a substring test, so multi-character insertions such as "-1" or "0." pass. The proposed text is then given to `Decimal`, which raises InvalidOperation out of the validation command when it is not a number | in a value box (from_=0, increment=.01) holding "5", pasting "-1" after the "5" proposes "5-1" | a proposal that is not a number is refused | high (not executed) | Widgets.MinusPasteRaises | Widgets.KeyValidateCorrected |

=== FILE: decimals.dfy ===
/**
 * The part of Python's decimal module the number box relies on: finite
 * decimals as (sign, coefficient, exponent), parsing of texts written with
 * the characters "-0123456789.", and normalize().
 */
module Decimals {
  import opened Wrappers
  import opened PowersOfTen

  /**
   * A finite decimal as Decimal.as_tuple() describes it: the sign, the
   * coefficient digits read as a natural number, and the exponent.
   */
  datatype Dec = Dec(negative: bool, coefficient: nat, exponent: int)

  /** The number a decimal stands for: (-1)^sign * coefficient * 10^exponent. */
  function Value(d: Dec): real {
    var magnitude := d.coefficient as real * Pow10(d.exponent);
    if d.negative then -magnitude else magnitude
  }

  predicate IsDigit(c: char) {
    '0' <= c <= '9'
  }

  predicate AllDigits(s: string) {
    forall i :: 0 <= i < |s| ==> IsDigit(s[i])
  }

  /** The value of a decimal digit character. */
  function DigitValue(c: char): (n: nat)
    ensures IsDigit(c) ==> n <= 9
  {
    if IsDigit(c) then (c - '0') as nat else 0
  }

  /** The natural number a string of decimal digits denotes, most significant digit first. */
  function DigitsValue(s: string): nat {
    if s == [] then 0 else 10 * DigitsValue(s[..|s| - 1]) + DigitValue(s[|s| - 1])
  }

  /** The position of the first occurrence of `c` in `s`, if any. */
  function IndexOf(s: string, c: char): (r: Option<nat>)
    ensures r.Some? ==> r.value < |s| && s[r.value] == c
    ensures r.Some? ==> forall j :: 0 <= j < r.value ==> s[j] != c
    ensures r.None? ==> forall j :: 0 <= j < |s| ==> s[j] != c
  {
    if s == [] then None
    else if s[0] == c then Some(0)
    else
      match IndexOf(s[1..], c)
      case None => None
      case Some(i) => Some(i + 1)
  }

  /**
   * A text split at its first point: the part before it and the part after
   * it, or the whole text and nothing when there is no point.
   */
  function SplitAtPoint(body: string): (parts: (string, string))
    ensures IndexOf(body, '.').None? ==> parts == (body, "")
    ensures IndexOf(body, '.').Some? ==> body == parts.0 + "." + parts.1
    ensures forall i :: 0 <= i < |parts.0| ==> parts.0[i] != '.'
  {
    match IndexOf(body, '.')
    case None => (body, "")
    case Some(i) =>
      assert body == body[..i] + "." + body[i + 1..];
      (body[..i], body[i + 1..])
  }

  /**
   * Decimal(s) for a text written with the characters "-0123456789.": an
   * optional leading minus, then digits with at most one point among them,
   * and at least one digit. The exponent is minus the number of digits after
   * the point. None stands for the InvalidOperation that Decimal raises.
   */
  function Parse(s: string): (r: Option<Dec>)
    ensures s == "" || s == "-" ==> r.None?
    ensures r.Some? ==> r.value.negative == (s[0] == '-') && r.value.exponent <= 0
  {
    var negative := |s| > 0 && s[0] == '-';
    var body := if negative then s[1..] else s;
    var (whole, fraction) := SplitAtPoint(body);
    if AllDigits(whole) && AllDigits(fraction) && |whole| + |fraction| > 0
    then Some(FromParts(negative, whole, fraction))
    else None
  }

  /**
   * The texts over "-0123456789." that Decimal accepts, stated character by
   * character: a minus only in front, at most one point, some digit.
   */
  ghost predicate WellFormed(s: string) {
    && (forall i :: 0 <= i < |s| ==> s[i] == '-' || s[i] == '.' || IsDigit(s[i]))
    && (forall i :: 0 < i < |s| ==> s[i] != '-')
    && (forall i, j :: 0 <= i < j < |s| && s[i] == '.' ==> s[j] != '.')
    && (exists i :: 0 <= i < |s| && IsDigit(s[i]))
  }

  /** A number written out: a minus when negative, the integer digits, and a point with the fraction digits when there is one. */
  function Render(negative: bool, whole: string, fraction: Option<string>): string {
    (if negative then "-" else "") + (whole + Tail(fraction))
  }

  /**
   * normalize(): strips trailing zeros from the coefficient, raising the
   * exponent for each, and turns any zero into 0 with exponent 0.
   */
  function Normalize(d: Dec): (n: Dec)
    ensures n.negative == d.negative
    ensures n.coefficient == 0 <==> d.coefficient == 0
    ensures n.coefficient != 0 ==> n.coefficient % 10 != 0 && n.exponent >= d.exponent
    decreases d.coefficient
  {
    if d.coefficient == 0 then Dec(d.negative, 0, 0)
    else if d.coefficient % 10 == 0 then Normalize(Dec(d.negative, d.coefficient / 10, d.exponent + 1))
    else d
  }

  /** 10^k divides n. */
  predicate DividedByPow10(n: nat, k: nat) {
    k == 0 || (n % 10 == 0 && DividedByPow10(n / 10, k - 1))
  }

  /** The decimal stands for a whole number. */
  predicate IsWhole(d: Dec) {
    d.exponent >= 0 || DividedByPow10(d.coefficient, -d.exponent)
  }

  /** Dropping a trailing zero digit and raising the exponent keeps the value. */
  lemma DropTrailingZero(d: Dec)
    requires d.coefficient % 10 == 0
    ensures Value(Dec(d.negative, d.coefficient / 10, d.exponent + 1)) == Value(d)
  {
    var q := d.coefficient / 10;
    assert d.coefficient == 10 * q;
    Pow10Step(d.exponent);
    var p := Pow10(d.exponent);
    assert q as real * (10.0 * p) == (10 * q) as real * p;
  }

  /**
   * normalize() keeps the value, leaves no trailing zero in a non-zero
   * coefficient, and gives zero the exponent 0.
   */
  lemma {:induction false} NormalizeSound(d: Dec)
    ensures Value(Normalize(d)) == Value(d)
    ensures Normalize(d).coefficient == 0 <==> d.coefficient == 0
    ensures Normalize(d).coefficient == 0 ==> Normalize(d).exponent == 0
    ensures Normalize(d).coefficient != 0 ==> Normalize(d).coefficient % 10 != 0
    decreases d.coefficient
  {
    if d.coefficient != 0 && d.coefficient % 10 == 0 {
      NormalizeSound(Dec(d.negative, d.coefficient / 10, d.exponent + 1));
      DropTrailingZero(d);
    }
  }

  /** The normalized exponent is non-negative exactly when the decimal is a whole number. */
  lemma {:induction false} NormalizedExponentWhole(d: Dec)
    ensures Normalize(d).exponent >= 0 <==> IsWhole(d)
    decreases d.coefficient
  {
    if d.coefficient == 0 {
      if d.exponent < 0 {
        ZeroDividedByPow10(-d.exponent);
      }
    } else if d.coefficient % 10 == 0 {
      var d' := Dec(d.negative, d.coefficient / 10, d.exponent + 1);
      NormalizedExponentWhole(d');
      assert Normalize(d) == Normalize(d');
      if d.exponent < 0 {
        var k: nat := -d.exponent;
        assert DividedByPow10(d.coefficient, k) == DividedByPow10(d.coefficient / 10, k - 1);
        assert IsWhole(d') == (k - 1 == 0 || DividedByPow10(d.coefficient / 10, k - 1));
      }
    }
  }

  /** The decimal times 10^k: the same sign and digits, the exponent raised by k. */
  function Shift(d: Dec, k: int): Dec {
    Dec(d.negative, d.coefficient, d.exponent + k)
  }

  /**
   * Scaling a non-zero decimal by 10^k raises its normalized exponent by k:
   * normalize() strips the same trailing zeros either way.
   */
  lemma {:induction false} NormalizeShift(d: Dec, k: int)
    requires d.coefficient != 0
    ensures Normalize(Shift(d, k)).exponent == Normalize(d).exponent + k
    decreases d.coefficient
  {
    if d.coefficient % 10 == 0 {
      var d' := Dec(d.negative, d.coefficient / 10, d.exponent + 1);
      NormalizeShift(d', k);
      assert Normalize(Shift(d, k)) == Normalize(Shift(d', k));
    }
  }

  /**
   * For a non-zero decimal the normalized exponent e counts its places:
   * the decimal times 10^-e is whole and the decimal times 10^(-e-1) is
   * not. A negative e is minus the number of decimal places; a positive e
   * is the number of trailing zeros of a whole number.
   */
  lemma DecimalPlaces(d: Dec)
    requires d.coefficient != 0
    ensures IsWhole(Shift(d, -Normalize(d).exponent))
    ensures !IsWhole(Shift(d, -Normalize(d).exponent - 1))
  {
    ShiftedWhole(d);
    ShiftedNotWhole(d);
  }

  /** Scaled so that its normalized exponent is 0, a non-zero decimal is whole. */
  lemma ShiftedWhole(d: Dec)
    requires d.coefficient != 0
    ensures IsWhole(Shift(d, -Normalize(d).exponent))
  {
    var p := -Normalize(d).exponent;
    NormalizeShift(d, p);
    NormalizedExponentWhole(Shift(d, p));
  }

  /** Scaled so that its normalized exponent is -1, a non-zero decimal is not whole. */
  lemma ShiftedNotWhole(d: Dec)
    requires d.coefficient != 0
    ensures !IsWhole(Shift(d, -Normalize(d).exponent - 1))
  {
    var p := -Normalize(d).exponent - 1;
    NormalizeShift(d, p);
    NormalizedExponentWhole(Shift(d, p));
  }

  /** Every power of ten divides zero. */
  lemma {:induction false} ZeroDividedByPow10(k: nat)
    ensures DividedByPow10(0, k)
  {
    if k > 0 {
      ZeroDividedByPow10(k - 1);
    }
  }

  /**
   * A rendered number parses back to its sign, the digits of both parts as
   * the coefficient, and minus the number of fraction digits as exponent.
   */
  lemma ParseRender(negative: bool, whole: string, fraction: Option<string>)
    requires AllDigits(whole) && AllDigits(fraction.ValueOr(""))
    requires |whole| + |fraction.ValueOr("")| > 0
    ensures Parse(Render(negative, whole, fraction)) == Some(FromParts(negative, whole, fraction.ValueOr("")))
  {
    var body := whole + Tail(fraction);
    var f := fraction.ValueOr("");
    RenderedParts(negative, whole, fraction);
    ParseParts(negative, Render(negative, whole, fraction), body, whole, f);
  }

  lemma RenderedParts(negative: bool, whole: string, fraction: Option<string>)
    requires AllDigits(whole) && AllDigits(fraction.ValueOr(""))
    requires |whole| + |fraction.ValueOr("")| > 0
    ensures var s, body := Render(negative, whole, fraction), whole + Tail(fraction);
      && (|s| > 0 && s[0] == '-') == negative && (if negative then s[1..] else s) == body
      && SplitAtPoint(body) == (whole, fraction.ValueOr(""))
  {
    BodyStart(whole, fraction);
    SignedBody(negative, whole + Tail(fraction));
    SplitRendered(whole, fraction);
  }

  /** What follows the integer digits: nothing, or a point and the fraction digits. */
  function Tail(fraction: Option<string>): string {
    match fraction
    case None => ""
    case Some(f) => "." + f
  }

  /** A rendered body starts with a digit or the point, never with a minus. */
  lemma BodyStart(whole: string, fraction: Option<string>)
    requires AllDigits(whole) && |whole| + |fraction.ValueOr("")| > 0
    ensures |whole + Tail(fraction)| > 0 && (whole + Tail(fraction))[0] != '-'
  {
    if |whole| > 0 {
      assert (whole + Tail(fraction))[0] == whole[0];
    }
  }

  /** Parse reads the sign, then the digits before and after the point. */
  lemma ParseParts(negative: bool, s: string, body: string, whole: string, fraction: string)
    requires AllDigits(whole) && AllDigits(fraction) && |whole| + |fraction| > 0
    requires (|s| > 0 && s[0] == '-') == negative && (if negative then s[1..] else s) == body
    requires SplitAtPoint(body) == (whole, fraction)
    ensures Parse(s) == Some(FromParts(negative, whole, fraction))
  {
  }

  /** The decimal with the given sign whose digits are `whole` then `fraction`, the point before `fraction`. */
  function FromParts(negative: bool, whole: string, fraction: string): Dec {
    Dec(negative, DigitsValue(whole + fraction), -|fraction|)
  }

  /** The sign of a text is read off a leading minus, and the rest is the body. */
  lemma SignedBody(negative: bool, body: string)
    requires |body| > 0 && body[0] != '-'
    ensures var s := (if negative then "-" else "") + body;
      (|s| > 0 && s[0] == '-') == negative && (if negative then s[1..] else s) == body
  {
    if negative {
      assert ("-" + body)[1..] == body;
    } else {
      assert "" + body == body;
    }
  }

  /** Splitting digits, a point and more digits recovers both parts. */
  lemma SplitRendered(whole: string, fraction: Option<string>)
    requires AllDigits(whole) && AllDigits(fraction.ValueOr(""))
    ensures SplitAtPoint(whole + Tail(fraction)) == (whole, fraction.ValueOr(""))
  {
    match fraction
    case None =>
      assert whole + "" == whole;
    case Some(f) =>
      var body := whole + "." + f;
      assert whole + ("." + f) == body;
      var r := IndexOf(body, '.');
      assert body[|whole|] == '.';
      assert r == Some(|whole|);
      assert body[..|whole|] == whole;
      assert body[|whole| + 1..] == f;
  }

  /** Every text is its sign, the part before its first point, and the rest. */
  lemma {:induction false} TextParts(s: string)
    ensures var negative := |s| > 0 && s[0] == '-';
      var body := if negative then s[1..] else s;
      var opt := if IndexOf(body, '.').None? then None else Some(SplitAtPoint(body).1);
      && s == Render(negative, SplitAtPoint(body).0, opt)
      && SplitAtPoint(body).1 == opt.ValueOr("")
  {
    var negative := |s| > 0 && s[0] == '-';
    var body := if negative then s[1..] else s;
    assert s == (if negative then "-" else "") + body by {
      if negative {
        assert s == "-" + body;
      } else {
        assert s == "" + body;
      }
    }
    SplitJoins(body);
  }

  /** A text is the part before its first point followed by the rest. */
  lemma SplitJoins(body: string)
    ensures var opt := if IndexOf(body, '.').None? then None else Some(SplitAtPoint(body).1);
      && body == SplitAtPoint(body).0 + Tail(opt)
      && SplitAtPoint(body).1 == opt.ValueOr("")
  {
    var (whole, fraction) := SplitAtPoint(body);
    if IndexOf(body, '.').None? {
      assert body == whole + Tail(None);
    } else {
      assert body == whole + Tail(Some(fraction));
    }
  }

  /**
   * A text split into sign, a point-free part and an optional point with
   * fraction is well formed exactly when both parts are digits, not both empty.
   */
  lemma WellFormedParts(negative: bool, whole: string, opt: Option<string>)
    requires forall i :: 0 <= i < |whole| ==> whole[i] != '.'
    requires !negative && |whole + Tail(opt)| > 0 ==> (whole + Tail(opt))[0] != '-'
    ensures WellFormed(Render(negative, whole, opt))
      <==> AllDigits(whole) && AllDigits(opt.ValueOr("")) && |whole| + |opt.ValueOr("")| > 0
  {
    if AllDigits(whole) && AllDigits(opt.ValueOr("")) && |whole| + |opt.ValueOr("")| > 0 {
      RenderedWellFormed(negative, whole, opt);
    }
    if WellFormed(Render(negative, whole, opt)) {
      WellFormedDigits(negative, whole, opt);
    }
  }

  /** Where each part of a rendered number sits in the text. */
  lemma RenderLayout(negative: bool, whole: string, opt: Option<string>)
    ensures var s, off := Render(negative, whole, opt), if negative then 1 else 0;
      && |s| == off + |whole| + |Tail(opt)|
      && (negative ==> s[0] == '-')
      && (forall j :: 0 <= j < |whole| ==> s[off + j] == whole[j])
      && (opt.Some? ==> s[off + |whole|] == '.')
      && (opt.Some? ==> forall j :: 0 <= j < |opt.value| ==> s[off + |whole| + 1 + j] == opt.value[j])
      && (opt.None? ==> |s| == off + |whole|)
  {
  }

  /**
   * Each character of a rendered number made of digits: a minus exactly at
   * the front of a negative one, a point exactly where the fraction begins,
   * and a digit everywhere else.
   */
  lemma RenderedChar(negative: bool, whole: string, opt: Option<string>, i: int)
    requires AllDigits(whole) && AllDigits(opt.ValueOr(""))
    requires 0 <= i < |Render(negative, whole, opt)|
    ensures var s, off := Render(negative, whole, opt), if negative then 1 else 0;
      && (s[i] == '-' <==> negative && i == 0)
      && (s[i] == '.' <==> opt.Some? && i == off + |whole|)
      && (s[i] == '-' || s[i] == '.' || IsDigit(s[i]))
  {
    var s := Render(negative, whole, opt);
    var sign, body := (if negative then "-" else ""), whole + Tail(opt);
    assert s == sign + body;
    if i >= |sign| {
      var m := i - |sign|;
      assert s[i] == body[m];
      if m < |whole| {
        assert body[m] == whole[m];
      } else {
        var t := Tail(opt);
        assert body[m] == t[m - |whole|];
        if m > |whole| {
          assert t[m - |whole|] == opt.value[m - |whole| - 1];
        }
      }
    }
  }

  /** Digits before and after an optional point, with a sign in front, make a well-formed text. */
  lemma RenderedWellFormed(negative: bool, whole: string, opt: Option<string>)
    requires AllDigits(whole) && AllDigits(opt.ValueOr("")) && |whole| + |opt.ValueOr("")| > 0
    ensures WellFormed(Render(negative, whole, opt))
  {
    var s := Render(negative, whole, opt);
    var off := if negative then 1 else 0;
    forall i | 0 <= i < |s| ensures (s[i] == '-' || s[i] == '.' || IsDigit(s[i])) && (i > 0 ==> s[i] != '-') {
      RenderedChar(negative, whole, opt, i);
    }
    forall i, j | 0 <= i < j < |s| && s[i] == '.' ensures s[j] != '.' {
      RenderedChar(negative, whole, opt, i);
      RenderedChar(negative, whole, opt, j);
    }
    RenderLayout(negative, whole, opt);
    var k := if |whole| > 0 then off else off + 1;
    RenderedChar(negative, whole, opt, k);
  }

  /** In a well-formed rendered text both parts are digits and some digit is present. */
  lemma WellFormedDigits(negative: bool, whole: string, opt: Option<string>)
    requires forall i :: 0 <= i < |whole| ==> whole[i] != '.'
    requires !negative && |whole + Tail(opt)| > 0 ==> (whole + Tail(opt))[0] != '-'
    requires WellFormed(Render(negative, whole, opt))
    ensures AllDigits(whole) && AllDigits(opt.ValueOr("")) && |whole| + |opt.ValueOr("")| > 0
  {
    WellFormedWhole(negative, whole, opt);
    WellFormedFraction(negative, whole, opt);
    var s := Render(negative, whole, opt);
    var off := if negative then 1 else 0;
    RenderLayout(negative, whole, opt);
    var k :| 0 <= k < |s| && IsDigit(s[k]);
    if k < off + |whole| {
      assert k >= off;
    } else {
      assert k > off + |whole|;
    }
  }

  /** In a well-formed rendered text the part before the point is digits. */
  lemma WellFormedWhole(negative: bool, whole: string, opt: Option<string>)
    requires forall i :: 0 <= i < |whole| ==> whole[i] != '.'
    requires !negative && |whole + Tail(opt)| > 0 ==> (whole + Tail(opt))[0] != '-'
    requires WellFormed(Render(negative, whole, opt))
    ensures AllDigits(whole)
  {
    var s := Render(negative, whole, opt);
    var off := if negative then 1 else 0;
    RenderLayout(negative, whole, opt);
    forall j | 0 <= j < |whole| ensures IsDigit(whole[j]) {
      WellFormedAt(s, off + j);
      if j == 0 && !negative {
        assert (whole + Tail(opt))[0] == whole[0];
      }
    }
  }

  /** In a well-formed rendered text the part after the point is digits. */
  lemma WellFormedFraction(negative: bool, whole: string, opt: Option<string>)
    requires WellFormed(Render(negative, whole, opt))
    ensures AllDigits(opt.ValueOr(""))
  {
    var s := Render(negative, whole, opt);
    var point := (if negative then 1 else 0) + |whole|;
    RenderLayout(negative, whole, opt);
    forall j | 0 <= j < |opt.ValueOr("")| ensures IsDigit(opt.value[j]) {
      WellFormedAt(s, point + 1 + j);
      WellFormedAfterPoint(s, point, point + 1 + j);
    }
  }

  /** A character of a well-formed text is a digit, a point, or a minus in front. */
  lemma WellFormedAt(s: string, i: int)
    requires WellFormed(s) && 0 <= i < |s|
    ensures s[i] == '.' || IsDigit(s[i]) || (i == 0 && s[i] == '-')
  {
  }

  /** A well-formed text has no second point. */
  lemma WellFormedAfterPoint(s: string, i: int, j: int)
    requires WellFormed(s) && 0 <= i < j < |s| && s[i] == '.'
    ensures s[j] != '.'
  {
  }

  /** Decimal accepts a text over "-0123456789." exactly when it is well formed. */
  lemma ParseWellFormed(s: string)
    ensures Parse(s).Some? <==> WellFormed(s)
  {
    var negative := |s| > 0 && s[0] == '-';
    var body := if negative then s[1..] else s;
    var opt := if IndexOf(body, '.').None? then None else Some(SplitAtPoint(body).1);
    TextParts(s);
    var whole := SplitAtPoint(body).0;
    if !negative && |whole + Tail(opt)| > 0 {
      assert whole + Tail(opt) == s;
    }
    WellFormedParts(negative, whole, opt);
  }
}

=== FILE: inverted_sums.dfy ===
/**
 * The reciprocal-sum calculator behind the parallel-resistance and
 * series-capacitance forms: 1/total = 1/x1 + 1/x2 + ..., over the entries
 * whose absolute value is strictly positive.
 */
module InvertedSums {
  import opened Wrappers
  import opened Variables

  /** Default prefix of the parallel-resistance form. */
  const ParallelResistancePrefix: string := "kilo"

  /** Default prefix of the series-capacitance form. */
  const SeriesCapacitancePrefix: string := "nano"

  /** Number of value rows a form starts with. */
  const StartingRows: nat := 3

  ghost predicate AllPositive(xs: seq<real>) {
    forall i :: 0 <= i < |xs| ==> xs[i] > 0.0
  }

  /** The entries that take part in the calculation: the strictly positive ones, in entry order. */
  function Positives(xs: seq<real>): (ps: seq<real>)
    ensures AllPositive(ps)
    ensures forall x :: x in ps <==> x in xs && x > 0.0
    ensures |ps| <= |xs|
  {
    if xs == [] then []
    else if xs[0] > 0.0 then [xs[0]] + Positives(xs[1..])
    else Positives(xs[1..])
  }

  /** The sum of 1/r over a sequence of positive values; 0 for no values. */
  function SumOfReciprocals(rs: seq<real>): (s: real)
    requires AllPositive(rs)
    ensures rs == [] <==> s == 0.0
    ensures s >= 0.0
  {
    if rs == [] then 0.0 else 1.0 / rs[0] + SumOfReciprocals(rs[1..])
  }

  /** Every term of the sum is at most the sum, since all terms are positive. */
  lemma {:induction false} SumAtLeastEachTerm(rs: seq<real>, i: int)
    requires AllPositive(rs) && 0 <= i < |rs|
    ensures SumOfReciprocals(rs) >= 1.0 / rs[i]
  {
    if i > 0 {
      SumAtLeastEachTerm(rs[1..], i - 1);
      assert rs[1..][i - 1] == rs[i];
    }
  }

  /** No entry takes part exactly when every entry is zero or negative. */
  lemma PositivesEmpty(xs: seq<real>)
    ensures Positives(xs) == [] <==> forall i :: 0 <= i < |xs| ==> xs[i] <= 0.0
  {
    if Positives(xs) != [] {
      assert Positives(xs)[0] in xs;
    } else {
      forall i | 0 <= i < |xs| ensures xs[i] <= 0.0 {
        assert xs[i] in xs;
      }
    }
  }

  /**
   * The value ValueEntryTable._calculate writes into the result: zero when no
   * entry is positive, and otherwise the reciprocal of the sum of reciprocals
   * of the positive entries.
   */
  function ReciprocalSum(xs: seq<real>): (r: real)
    ensures r >= 0.0
    ensures r == 0.0 <==> forall i :: 0 <= i < |xs| ==> xs[i] <= 0.0
    ensures r > 0.0 ==> r * SumOfReciprocals(Positives(xs)) == 1.0
  {
    PositivesEmpty(xs);
    var ps := Positives(xs);
    if ps == [] then 0.0
    else
      var s := SumOfReciprocals(ps);
      ReciprocalPositive(s);
      1.0 / s
  }

  /** The combined value is never larger than the smallest positive entry. */
  lemma ReciprocalSumAtMostSmallest(xs: seq<real>, i: int)
    requires 0 <= i < |xs| && xs[i] > 0.0
    ensures 0.0 < ReciprocalSum(xs) <= xs[i]
  {
    PositivesEmpty(xs);
    BelowSmallest(xs, SumOfReciprocals(Positives(xs)));
  }

  /** The reciprocal of the sum over the positive entries is at most each positive entry. */
  lemma BelowSmallest(xs: seq<real>, s: real)
    requires Positives(xs) != [] && s == SumOfReciprocals(Positives(xs))
    ensures s > 0.0 && 1.0 / s > 0.0
    ensures forall i :: 0 <= i < |xs| && xs[i] > 0.0 ==> 1.0 / s <= xs[i]
  {
    var ps := Positives(xs);
    ReciprocalPositive(s);
    forall i | 0 <= i < |xs| && xs[i] > 0.0 ensures 1.0 / s <= xs[i] {
      var x := xs[i];
      assert x in ps;
      var j :| 0 <= j < |ps| && ps[j] == x;
      SumAtLeastEachTerm(ps, j);
      ReciprocalBound(s, x);
    }
  }

  lemma ReciprocalPositive(s: real)
    requires s > 0.0
    ensures 1.0 / s > 0.0 && 1.0 / s * s == 1.0
  {
  }

  /** A sum at least 1/x, for positive x, has a reciprocal at most x. */
  lemma ReciprocalBound(s: real, x: real)
    requires x > 0.0 && s >= 1.0 / x
    ensures 1.0 / s <= x
  {
    assert s * x >= 1.0;
  }

  /** When every entry is positive, every entry takes part. */
  lemma {:induction false} PositivesOfPositive(xs: seq<real>)
    requires AllPositive(xs)
    ensures Positives(xs) == xs
  {
    if xs != [] {
      PositivesOfPositive(xs[1..]);
      assert [xs[0]] + xs[1..] == xs;
    }
  }

  /** Filtering distributes over concatenation. */
  lemma {:induction false} PositivesConcat(a: seq<real>, b: seq<real>)
    ensures Positives(a + b) == Positives(a) + Positives(b)
  {
    if a != [] {
      assert (a + b)[1..] == a[1..] + b;
      PositivesConcat(a[1..], b);
    } else {
      assert a + b == b;
    }
  }

  /** Removing one value takes its reciprocal out of the sum. */
  lemma {:induction false} SumRemove(b: seq<real>, k: int)
    requires AllPositive(b) && 0 <= k < |b|
    ensures AllPositive(b[..k] + b[k + 1..])
    ensures SumOfReciprocals(b) == 1.0 / b[k] + SumOfReciprocals(b[..k] + b[k + 1..])
  {
    var rest := b[..k] + b[k + 1..];
    if k == 0 {
      assert rest == b[1..];
    } else {
      var tail := b[1..];
      assert AllPositive(tail);
      SumRemove(tail, k - 1);
      var shorter := tail[..k - 1] + tail[k..];
      assert rest == [b[0]] + shorter;
      assert rest[1..] == shorter;
    }
  }

  /** Removing one value takes one occurrence of it out of the multiset. */
  lemma MultisetRemove(b: seq<real>, k: int)
    requires 0 <= k < |b|
    ensures multiset(b[..k] + b[k + 1..]) == multiset(b) - multiset{b[k]}
  {
    assert b == b[..k] + [b[k]] + b[k + 1..];
  }

  /** The sum of reciprocals does not depend on the order of the values. */
  lemma {:induction false} SumPermutation(a: seq<real>, b: seq<real>)
    requires AllPositive(a) && multiset(a) == multiset(b)
    ensures AllPositive(b)
    ensures SumOfReciprocals(a) == SumOfReciprocals(b)
    decreases |a|
  {
    PermutationPositive(a, b);
    if a != [] {
      var k := RemoveFirst(a, b);
      SumRemove(b, k);
      SumRemove(a, 0);
      SumPermutation(a[1..], b[..k] + b[k + 1..]);
    }
  }

  /** A rearrangement of positive values is positive. */
  lemma PermutationPositive(a: seq<real>, b: seq<real>)
    requires AllPositive(a) && multiset(a) == multiset(b)
    ensures AllPositive(b)
  {
    forall i | 0 <= i < |b| ensures b[i] > 0.0 {
      assert b[i] in multiset(b);
      assert b[i] in a;
    }
  }

  /**
   * The first value of a non-empty sequence occurs in any rearrangement of
   * it, and taking it out of both leaves rearrangements of each other.
   */
  lemma RemoveFirst(a: seq<real>, b: seq<real>) returns (k: int)
    requires a != [] && multiset(a) == multiset(b)
    ensures 0 <= k < |b| && b[k] == a[0]
    ensures a[..0] + a[1..] == a[1..]
    ensures multiset(a[1..]) == multiset(b[..k] + b[k + 1..])
  {
    var x := a[0];
    assert x in multiset(b);
    assert x in b;
    k :| 0 <= k < |b| && b[k] == x;
    assert a[..0] + a[1..] == a[1..];
    MultisetRemove(a, 0);
    MultisetRemove(b, k);
    calc {
      multiset(a[1..]);
      multiset(a) - multiset{x};
      multiset(b) - multiset{x};
      multiset(b[..k] + b[k + 1..]);
    }
  }

  /** An entry takes part as often as it occurs when positive, and never otherwise. */
  lemma {:induction false} PositivesCount(xs: seq<real>, x: real)
    ensures multiset(Positives(xs))[x] == if x > 0.0 then multiset(xs)[x] else 0
  {
    if xs != [] {
      PositivesCount(xs[1..], x);
      assert xs == [xs[0]] + xs[1..];
      assert multiset(xs) == multiset{xs[0]} + multiset(xs[1..]);
    }
  }

  /** The result does not depend on the order of the entries. */
  lemma OrderIndependent(xs: seq<real>, ys: seq<real>)
    requires multiset(xs) == multiset(ys)
    ensures ReciprocalSum(xs) == ReciprocalSum(ys)
  {
    forall x ensures multiset(Positives(xs))[x] == multiset(Positives(ys))[x] {
      PositivesCount(xs, x);
      PositivesCount(ys, x);
    }
    assert multiset(Positives(xs)) == multiset(Positives(ys));
    assert |Positives(xs)| == |multiset(Positives(xs))| == |Positives(ys)|;
    SumPermutation(Positives(xs), Positives(ys));
  }

  /** A zero or negative entry, wherever it is inserted, leaves the result unchanged. */
  lemma NonPositiveIgnored(xs: seq<real>, i: int, z: real)
    requires 0 <= i <= |xs| && z <= 0.0
    ensures ReciprocalSum(xs[..i] + [z] + xs[i..]) == ReciprocalSum(xs)
  {
    assert xs == xs[..i] + xs[i..];
    PositivesConcat(xs[..i] + [z], xs[i..]);
    PositivesConcat(xs[..i], [z]);
    PositivesConcat(xs[..i], xs[i..]);
    assert Positives([z]) == [];
    assert Positives(xs[..i] + [z] + xs[i..]) == Positives(xs);
  }

  /** A single positive entry is its own result. */
  lemma SingleEntry(v: real)
    requires v > 0.0
    ensures ReciprocalSum([v]) == v
  {
    assert Positives([v]) == [v];
  }

  /** The sum of reciprocals of n copies of v is n / v. */
  lemma {:induction false} SumOfCopies(v: real, n: nat)
    requires v > 0.0
    ensures AllPositive(seq(n, _ => v))
    ensures SumOfReciprocals(seq(n, _ => v)) == n as real / v
  {
    if n > 0 {
      SumOfCopies(v, n - 1);
      assert seq(n, _ => v)[1..] == seq(n - 1, _ => v);
    }
  }

  /** n equal positive entries combine to v / n: n equal resistors in parallel. */
  lemma EqualEntries(v: real, n: nat)
    requires v > 0.0 && n > 0
    ensures ReciprocalSum(seq(n, _ => v)) == v / n as real
  {
    SumOfCopies(v, n);
    PositivesOfPositive(seq(n, _ => v));
    var s := n as real / v;
    assert 1.0 / s == v / n as real;
  }

  /** Two equal entries combine to half their value. */
  lemma TwoEqualEntries(v: real)
    requires v > 0.0
    ensures ReciprocalSum([v, v]) == v / 2.0
  {
    EqualEntries(v, 2);
    assert seq(2, _ => v) == [v, v];
  }

  /** Two 2 kOhm resistors in parallel give 1 kOhm; three zero entries give 0. */
  lemma Examples()
    ensures ReciprocalSum([2000.0, 2000.0]) == 1000.0
    ensures ReciprocalSum([0.0, 0.0, 0.0]) == 0.0
  {
    TwoEqualEntries(2000.0);
  }

  /**
   * A ValueEntryTable: the value rows in the order they were added, the
   * result variable, and the prefix every new row starts with.
   */
  datatype Table = Table(rows: seq<PrefixNumber>, result: PrefixNumber, defaultPrefix: string)

  /** The rows' absolute values in row order, or the exception of the first row that cannot be read. */
  function AbsoluteValues(rows: seq<PrefixNumber>): (r: Result<seq<real>, VarError>)
    ensures r.Success? <==> forall i :: 0 <= i < |rows| ==> Readable(rows[i])
    ensures r.Success? ==> |r.value| == |rows|
    ensures r.Success? ==> forall i :: 0 <= i < |rows| ==> GetAbsolute(rows[i]) == Success(r.value[i])
  {
    if rows == [] then Success([])
    else
      var x :- GetAbsolute(rows[0]);
      var xs :- AbsoluteValues(rows[1..]);
      assert forall i :: 1 <= i < |rows| ==> rows[1..][i - 1] == rows[i];
      Success([x] + xs)
  }

  /** The result holds the reciprocal sum of the rows' current absolute values. */
  ghost predicate Consistent(t: Table) {
    && AbsoluteValues(t.rows).Success?
    && GetAbsolute(t.result) == Success(ReciprocalSum(AbsoluteValues(t.rows).value))
  }

  /**
   * ValueEntryTable._calculate: reads every row's absolute value and writes
   * the reciprocal sum into the result with set_absolute, so only the result's
   * display value changes; a row that cannot be read, or a result prefix
   * missing from the table, raises instead.
   */
  function Calculate(t: Table): (r: Result<Table, VarError>)
    ensures r.Success? <==> AbsoluteValues(t.rows).Success? && IsPrefix(t.result.prefix)
    ensures r.Success? ==> r.value.rows == t.rows && r.value.defaultPrefix == t.defaultPrefix
    ensures r.Success? ==> r.value.result.prefix == t.result.prefix
    ensures r.Success? ==> Consistent(r.value)
  {
    var xs :- AbsoluteValues(t.rows);
    var result :- SetAbsolute(t.result, ReciprocalSum(xs));
    Success(t.(result := result))
  }

  /**
   * A write traced by the table: _calculate runs; when it raises, the
   * exception ends the callback and the table keeps the state it had.
   */
  function Recalculate(t: Table): (r: Table)
    ensures r.rows == t.rows && r.defaultPrefix == t.defaultPrefix && r.result.prefix == t.result.prefix
    ensures AbsoluteValues(t.rows).Success? && IsPrefix(t.result.prefix) ==> Consistent(r)
    ensures !(AbsoluteValues(t.rows).Success? && IsPrefix(t.result.prefix)) ==> r == t
  {
    match Calculate(t)
    case Success(t') => t'
    case Failure(_) => t
  }

  /** A freshly added row: zero in the table's default prefix. */
  function NewRow(defaultPrefix: string): (v: PrefixNumber)
    ensures IsPrefix(defaultPrefix) ==> GetAbsolute(v) == Success(0.0)
    ensures v.prefix == defaultPrefix
  {
    PrefixNumber(Number(0.0), defaultPrefix)
  }

  /** InvertedSumsForm: three zero rows and a zero result, all in the form's default prefix. */
  function NewForm(defaultPrefix: string): (t: Table)
    requires IsPrefix(defaultPrefix)
    ensures |t.rows| == StartingRows
    ensures forall i :: 0 <= i < |t.rows| ==> t.rows[i] == NewRow(defaultPrefix)
    ensures t.result.prefix == defaultPrefix && t.defaultPrefix == defaultPrefix
    ensures Consistent(t)
  {
    var t := Table(seq(StartingRows, _ => NewRow(defaultPrefix)), NewRow(defaultPrefix), defaultPrefix);
    assert AbsoluteValues(t.rows).Success?;
    t
  }

  /**
   * The two forms as built: parallel resistance counts in kilo-ohms and
   * series capacitance in nanofarads, both prefixes of the table, and each
   * form starts with its rows and its result at 0 in that prefix.
   */
  lemma FormsAsBuilt()
    ensures IsPrefix(ParallelResistancePrefix) && Scale(ParallelResistancePrefix) == 1000.0
    ensures IsPrefix(SeriesCapacitancePrefix) && Scale(SeriesCapacitancePrefix) == 0.000000001
    ensures NewForm(ParallelResistancePrefix).result == PrefixNumber(Number(0.0), "kilo")
    ensures NewForm(SeriesCapacitancePrefix).result == PrefixNumber(Number(0.0), "nano")
  {
  }

  /** The "More" button: a new zero row in the default prefix; nothing is recalculated. */
  function AddRow(t: Table): (r: Table)
    ensures |r.rows| == |t.rows| + 1 && r.rows[..|t.rows|] == t.rows
    ensures r.rows[|t.rows|] == NewRow(t.defaultPrefix)
    ensures r.result == t.result && r.defaultPrefix == t.defaultPrefix
  {
    t.(rows := t.rows + [NewRow(t.defaultPrefix)])
  }

  /** The user edits row i's value; the table recalculates. */
  function EditRow(t: Table, i: int, c: Content): (r: Table)
    requires 0 <= i < |t.rows|
    ensures r.rows == t.rows[i := PrefixNumber(c, t.rows[i].prefix)]
    ensures r.result.prefix == t.result.prefix && r.defaultPrefix == t.defaultPrefix
    ensures AbsoluteValues(r.rows).Success? && IsPrefix(t.result.prefix) ==> Consistent(r)
    ensures !AbsoluteValues(r.rows).Success? ==> r.result == t.result
  {
    Recalculate(t.(rows := t.rows[i := t.rows[i].(content := c)]))
  }

  /** The user picks a prefix for row i from its menu, which offers only the table's prefixes; the table recalculates. */
  function SetRowPrefix(t: Table, i: int, p: string): (r: Table)
    requires 0 <= i < |t.rows| && IsPrefix(p)
    ensures r.rows == t.rows[i := PrefixNumber(t.rows[i].content, p)]
    ensures r.result.prefix == t.result.prefix && r.defaultPrefix == t.defaultPrefix
    ensures AbsoluteValues(r.rows).Success? && IsPrefix(t.result.prefix) ==> Consistent(r)
    ensures !AbsoluteValues(r.rows).Success? ==> r.result == t.result
  {
    Recalculate(t.(rows := t.rows[i := t.rows[i].(prefix := p)]))
  }

  /** The user picks a prefix for the result; the traced write recalculates it in the new units. */
  function SetResultPrefix(t: Table, p: string): (r: Table)
    requires IsPrefix(p)
    ensures r.rows == t.rows && r.defaultPrefix == t.defaultPrefix && r.result.prefix == p
    ensures AbsoluteValues(t.rows).Success? ==> Consistent(r)
    ensures !AbsoluteValues(t.rows).Success? ==> r.result == t.result.(prefix := p)
  {
    Recalculate(t.(result := t.result.(prefix := p)))
  }

  /**
   * With a row that cannot be read, the recalculation raises after the new
   * prefix is written, so the result keeps its display value in the new
   * units: 1.0 kilo-ohm becomes 1.0 mega-ohm.
   */
  lemma ResultPrefixWithUnreadableRow()
    ensures var t := Table([PrefixNumber(NotANumber, "kilo")], PrefixNumber(Number(1.0), "kilo"), "kilo");
      && GetAbsolute(t.result) == Success(1000.0)
      && GetAbsolute(SetResultPrefix(t, "mega").result) == Success(1000000.0)
  {
    PrefixScales();
  }

  /** A new row's absolute value, zero, is appended to the rows' absolute values. */
  lemma {:induction false} AbsoluteValuesAppend(rows: seq<PrefixNumber>, v: PrefixNumber)
    requires AbsoluteValues(rows).Success? && Readable(v)
    ensures AbsoluteValues(rows + [v]) == Success(AbsoluteValues(rows).value + [GetAbsolute(v).value])
  {
    if rows != [] {
      var x := GetAbsolute(v).value;
      var a0 := GetAbsolute(rows[0]).value;
      assert (rows + [v])[0] == rows[0];
      assert (rows + [v])[1..] == rows[1..] + [v];
      AbsoluteValuesAppend(rows[1..], v);
      var tail := AbsoluteValues(rows[1..]).value;
      assert AbsoluteValues(rows).value == [a0] + tail;
      assert AbsoluteValues(rows + [v]) == Success([a0] + (tail + [x]));
      assert [a0] + (tail + [x]) == [a0] + tail + [x];
    } else {
      assert rows + [v] == [v];
      assert [v][1..] == [];
      assert AbsoluteValues([v][1..]) == Success([]);
      var x := GetAbsolute(v).value;
      assert [x] + [] == [x];
      assert AbsoluteValues(rows).value == [];
      assert AbsoluteValues([v]) == Success([x]);
      assert AbsoluteValues(rows).value + [x] == [x];
    }
  }

  /** Adding a row leaves the result correct without recalculating, because the row starts at zero. */
  lemma AddRowKeepsResult(t: Table)
    requires Consistent(t) && IsPrefix(t.defaultPrefix)
    ensures Consistent(AddRow(t))
  {
    var xs := AbsoluteValues(t.rows).value;
    AbsoluteValuesAppend(t.rows, NewRow(t.defaultPrefix));
    NonPositiveIgnored(xs, |xs|, 0.0);
    assert xs[..|xs|] + [0.0] + xs[|xs|..] == xs + [0.0];
  }

  /** Changing the result's prefix changes only its units: its absolute value stays the same. */
  lemma ResultPrefixKeepsValue(t: Table, p: string)
    requires Consistent(t) && IsPrefix(p)
    ensures GetAbsolute(SetResultPrefix(t, p).result) == GetAbsolute(t.result)
  {
  }
}

=== FILE: powers.dfy ===
/** Integer powers of ten over the reals: the scale of an SI prefix and of a decimal exponent. */
module PowersOfTen {

  /** 10 raised to the integer power `e`. */
  function Pow10(e: int): (r: real)
    ensures r > 0.0
    decreases if e < 0 then -e else e
  {
    if e == 0 then 1.0
    else if e > 0 then 10.0 * Pow10(e - 1)
    else Pow10(e + 1) / 10.0
  }

  /** Raising the exponent by one multiplies by ten, whatever the sign of the exponent. */
  lemma Pow10Step(e: int)
    ensures Pow10(e + 1) == 10.0 * Pow10(e)
  {
  }
}

=== FILE: rc_frequency.dfy ===
/**
 * The RC frequency form: resistance R, capacitance C and frequency F related
 * by F = 1 / (2 pi R C). One of the three is selected as the unknown; the
 * Calculate button solves for it from the other two.
 */
module RCFrequency {
  import opened Wrappers
  import opened Variables

  type PositiveReal = x: real | x > 0.0 witness 1.0

  /** The constant pi. Only its positivity matters to the model, so its value is left open. */
  const Pi: PositiveReal

  /** The three quantities of the form, in the order the form lists them. */
  datatype Role = R | C | F

  /** The state of a quantity's number box. */
  datatype InputState = Normal | Disabled

  /**
   * The form: the three prefixed quantities, the selected unknown, the state
   * of each quantity's number box, and the error text shown under the table.
   */
  datatype Form = Form(
    resistance: PrefixNumber,
    capacitance: PrefixNumber,
    frequency: PrefixNumber,
    selected: Role,
    inputs: map<Role, InputState>,
    error: string)

  /** The message shown when the two known quantities multiply to zero. */
  const ZeroError: string := "Error: Values used for calculation cannot be zero."

  /** The position of a role in the form's fixed order R, C, F. */
  function Position(k: Role): (n: nat)
    ensures n < 3
  {
    match k
    case R => 0
    case C => 1
    case F => 2
  }

  function Quantity(f: Form, k: Role): PrefixNumber {
    match k
    case R => f.resistance
    case C => f.capacitance
    case F => f.frequency
  }

  /** The form with quantity k replaced and everything else as it was. */
  function WithQuantity(f: Form, k: Role, v: PrefixNumber): (r: Form)
    ensures Quantity(r, k) == v
    ensures forall j :: j != k ==> Quantity(r, j) == Quantity(f, j)
    ensures r.selected == f.selected && r.inputs == f.inputs && r.error == f.error
  {
    match k
    case R => f.(resistance := v)
    case C => f.(capacitance := v)
    case F => f.(frequency := v)
  }

  /** The two known quantities for an unknown, in the order R, C, F. */
  function Operands(k: Role): (ops: (Role, Role))
    ensures ops.0 != k && ops.1 != k && ops.0 != ops.1
    ensures Position(ops.0) < Position(ops.1)
  {
    match k
    case R => (C, F)
    case C => (R, F)
    case F => (R, C)
  }

  /**
   * 1 / (2 pi a b), the unknown of F = 1 / (2 pi R C) from the other two; no
   * value when the divisor is zero, where Python raises ZeroDivisionError.
   */
  function Solve(a: real, b: real): (r: Option<real>)
    ensures r.None? <==> a == 0.0 || b == 0.0
    ensures r.Some? ==> r.value * (2.0 * Pi * a * b) == 1.0
  {
    var d := 2.0 * Pi * a * b;
    if d == 0.0 then None
    else
      assert 1.0 / d * d == 1.0;
      Some(1.0 / d)
  }

  /**
   * The Calculate button: clear the error; read the two known quantities'
   * absolute values; if they multiply to zero, show ZeroError and change
   * nothing else; otherwise write the solved value into the unknown with
   * set_absolute. A known quantity that cannot be read, or whose prefix is
   * not in the table, raises and leaves the form as it was apart from the
   * cleared error; an unknown prefix on the unknown quantity raises in
   * set_absolute and leaves it unwritten.
   */
  function TryCalculation(f: Form): (r: Form)
    ensures r.selected == f.selected && r.inputs == f.inputs
    ensures forall k :: k != f.selected ==> Quantity(r, k) == Quantity(f, k)
    ensures r.error == "" || r.error == ZeroError
    ensures (|| GetAbsolute(Quantity(f, Operands(f.selected).0)).Failure?
             || GetAbsolute(Quantity(f, Operands(f.selected).1)).Failure?) ==> r == f.(error := "")
    ensures !IsPrefix(Quantity(f, f.selected).prefix) ==> Quantity(r, f.selected) == Quantity(f, f.selected)
  {
    var f0 := f.(error := "");
    var (ka, kb) := Operands(f.selected);
    match GetAbsolute(Quantity(f0, ka))
    case Failure(_) => f0
    case Success(a) =>
      match GetAbsolute(Quantity(f0, kb))
      case Failure(_) => f0
      case Success(b) =>
        match Solve(a, b)
        case None => f0.(error := ZeroError)
        case Some(x) =>
          match SetAbsolute(Quantity(f0, f.selected), x)
          case Failure(_) => f0
          case Success(v) => WithQuantity(f0, f.selected, v)
  }

  /** The error is set exactly when both known quantities are readable and one of them is zero. */
  lemma TryCalculationError(f: Form)
    ensures var (ka, kb) := Operands(f.selected);
      TryCalculation(f).error == ZeroError <==>
        && Readable(Quantity(f, ka))
        && Readable(Quantity(f, kb))
        && (GetAbsolute(Quantity(f, ka)).value == 0.0 || GetAbsolute(Quantity(f, kb)).value == 0.0)
  {
  }

  /** When the error is set, none of R, C, F changes. */
  lemma TryCalculationErrorChangesNothing(f: Form, k: Role)
    requires TryCalculation(f).error == ZeroError
    ensures Quantity(TryCalculation(f), k) == Quantity(f, k)
  {
  }

  /**
   * When the known quantities read a and b, both non-zero, and the unknown's
   * prefix is in the table, the error is cleared and the unknown's absolute
   * value becomes 1 / (2 pi a b), with its prefix kept.
   */
  lemma TryCalculationSolves(f: Form, a: real, b: real)
    requires GetAbsolute(Quantity(f, Operands(f.selected).0)) == Success(a) && a != 0.0
    requires GetAbsolute(Quantity(f, Operands(f.selected).1)) == Success(b) && b != 0.0
    requires IsPrefix(Quantity(f, f.selected).prefix)
    ensures TryCalculation(f).error == ""
    ensures Quantity(TryCalculation(f), f.selected).prefix == Quantity(f, f.selected).prefix
    ensures GetAbsolute(Quantity(TryCalculation(f), f.selected)) == Success(1.0 / (2.0 * Pi * a * b))
  {
    var d := 2.0 * Pi * a * b;
    SolveNonZero(a, b);
    var f0 := f.(error := "");
    var v := SetAbsolute(Quantity(f0, f.selected), 1.0 / d).value;
    assert TryCalculation(f) == WithQuantity(f0, f.selected, v);
  }

  /** With two non-zero operands there is a solution, 1 / (2 pi a b). */
  lemma SolveNonZero(a: real, b: real)
    requires a != 0.0 && b != 0.0
    ensures Solve(a, b) == Some(1.0 / (2.0 * Pi * a * b))
  {
    NonZeroProduct(a, b);
  }

  /** Twice pi times two non-zero reals is non-zero. */
  lemma NonZeroProduct(a: real, b: real)
    requires a != 0.0 && b != 0.0
    ensures 2.0 * Pi * a * b != 0.0
  {
    assert 2.0 * Pi * a != 0.0;
  }

  /** The state _output_selected gives the box of quantity j when k is selected. */
  function StateFor(j: Role, k: Role): InputState {
    if j == k then Disabled else Normal
  }

  /**
   * Choosing the unknown: the number box of the selected quantity is disabled
   * and the other two are enabled; values and error text are untouched.
   */
  function Select(f: Form, k: Role): (r: Form)
    ensures r.selected == k
    ensures r.inputs.Keys == {R, C, F}
    ensures forall j :: j in r.inputs ==> (r.inputs[j] == Disabled <==> j == k)
    ensures forall j :: Quantity(r, j) == Quantity(f, j)
    ensures r.error == f.error
  {
    f.(selected := k, inputs := map[R := StateFor(R, k), C := StateFor(C, k), F := StateFor(F, k)])
  }

  /**
   * The form as built: zero resistance in kilo-ohms, zero capacitance in
   * nanofarads, zero frequency in hertz, no error, and F selected.
   */
  function Initial(): (f: Form)
    ensures f.selected == F && f.error == ""
    ensures f.inputs.Keys == {R, C, F}
    ensures forall j :: j in f.inputs ==> (f.inputs[j] == Disabled <==> j == F)
    ensures f.resistance.prefix == "kilo" && f.capacitance.prefix == "nano" && f.frequency.prefix == ""
    ensures forall j :: GetAbsolute(Quantity(f, j)) == Success(0.0)
  {
    var built := Form(
      PrefixNumber(Number(0.0), "kilo"),
      PrefixNumber(Number(0.0), "nano"),
      PrefixNumber(Number(0.0), ""),
      F,
      map[R := Normal, C := Normal, F := Normal],
      "");
    Select(built, F)
  }

  /**
   * The reset: R, C and F set to 0 with the prefixes kilo, nano and none;
   * the selection, the boxes' states and the error text are untouched.
   */
  function Reset(f: Form): (r: Form)
    ensures r.resistance.prefix == "kilo" && r.capacitance.prefix == "nano" && r.frequency.prefix == ""
    ensures forall j :: GetAbsolute(Quantity(r, j)) == Success(0.0)
    ensures r.selected == f.selected && r.inputs == f.inputs && r.error == f.error
  {
    f.(resistance := Set(f.resistance, 0.0, Some("kilo")).value,
       capacitance := Set(f.capacitance, 0.0, Some("nano")).value,
       frequency := Set(f.frequency, 0.0, Some("")).value)
  }

  /**
   * Solving for F from positive R and C, then selecting R and solving for it
   * from C and the new F, gives back the original resistance.
   */
  lemma SolveRoundTrip(f: Form)
    requires f.selected == F && Readable(f.resistance) && Readable(f.capacitance) && IsPrefix(f.frequency.prefix)
    requires GetAbsolute(f.resistance).value > 0.0 && GetAbsolute(f.capacitance).value > 0.0
    ensures GetAbsolute(TryCalculation(Select(TryCalculation(f), R)).resistance) == GetAbsolute(f.resistance)
  {
    var r0, c0 := GetAbsolute(f.resistance).value, GetAbsolute(f.capacitance).value;
    assert Operands(F) == (R, C);
    assert Quantity(f, R) == f.resistance && Quantity(f, C) == f.capacitance;
    TryCalculationSolves(f, r0, c0);
    var f1 := TryCalculation(f);
    assert Quantity(f1, F) == f1.frequency;
    var fr := 1.0 / (2.0 * Pi * r0 * c0);
    assert GetAbsolute(f1.frequency) == Success(fr);
    InverseOfInverse(r0, c0, fr);
    var f2 := Select(f1, R);
    assert Operands(R) == (C, F);
    TryCalculationSolves(f2, c0, fr);
  }

  /** If fr = 1 / (2 pi r c) then r = 1 / (2 pi c fr). */
  lemma InverseOfInverse(r: real, c: real, fr: real)
    requires r > 0.0 && c > 0.0 && fr == 1.0 / (2.0 * Pi * r * c)
    ensures fr > 0.0
    ensures r == 1.0 / (2.0 * Pi * c * fr)
  {
    var k := 2.0 * Pi * c;
    assert k > 0.0;
    assert 2.0 * Pi * r * c == k * r;
    assert fr == 1.0 / (k * r);
    assert 2.0 * Pi * c * fr == k * fr;
    assert k * fr == 1.0 / r;
  }

  /**
   * 1 kOhm with 1 uF gives 500/pi Hz (about 159.15 Hz); 1 kHz with 1 nF
   * gives 500000/pi Ohm (about 159.15 kOhm).
   */
  lemma Examples()
    ensures Solve(1000.0, 0.000001) == Some(500.0 / Pi)
    ensures Solve(1000.0, 0.000000001) == Some(500000.0 / Pi)
  {
    SolveNonZero(1000.0, 0.000001);
    assert 2.0 * Pi * 1000.0 * 0.000001 == Pi / 500.0;
    assert 1.0 / (Pi / 500.0) == 500.0 / Pi;
    SolveNonZero(1000.0, 0.000000001);
    assert 2.0 * Pi * 1000.0 * 0.000000001 == Pi / 500000.0;
    assert 1.0 / (Pi / 500000.0) == 500000.0 / Pi;
  }
}

=== FILE: variables.dfy ===
/**
 * PrefixNumberVar: a Tk double variable whose value is shown in the units of
 * one of eight SI decimal prefixes (section 3 of the BIPM SI Brochure, 9th
 * edition), with conversions to and from the absolute, unprefixed value.
 */
module Variables {
  import opened Wrappers
  import opened PowersOfTen

  /** The prefix table: each prefix name and the power of ten it stands for. */
  const PrefixExponents: map<string, int> := map[
    "pico" := -12,
    "nano" := -9,
    "micro" := -6,
    "milli" := -3,
    "" := 0,
    "kilo" := 3,
    "mega" := 6,
    "giga" := 9
  ]

  predicate IsPrefix(p: string) {
    p in PrefixExponents
  }

  /** The factor that turns a value in units of prefix `p` into an absolute value. */
  function Scale(p: string): (s: real)
    requires IsPrefix(p)
    ensures s > 0.0
  {
    Pow10(PrefixExponents[p])
  }

  /**
   * What the underlying Tcl variable holds: a number, the empty text of a
   * cleared entry, or any other text (such as a lone "-" typed so far).
   */
  datatype Content = Number(x: real) | Blank | NotANumber

  /** A prefixed quantity: the displayed value and the name of its prefix. */
  datatype PrefixNumber = PrefixNumber(content: Content, prefix: string)

  /** The exceptions the variable's methods raise. */
  datatype VarError =
    | InvalidPrefix(name: string)  // ValueError raised by set
    | UnknownPrefix(name: string)  // KeyError from a prefix-table lookup
    | NotAFloat                    // TclError re-raised by get

  /** A variable whose absolute value can be read without an exception. */
  predicate Readable(v: PrefixNumber) {
    !v.content.NotANumber? && IsPrefix(v.prefix)
  }

  /** The value in display units; a blank entry reads as 0. */
  function Get(v: PrefixNumber): (r: Result<real, VarError>)
    ensures r.Failure? <==> v.content.NotANumber?
    ensures r.Failure? ==> r.error == NotAFloat
    ensures v.content.Blank? ==> r == Success(0.0)
    ensures v.content.Number? ==> r == Success(v.content.x)
  {
    match v.content
    case Number(x) => Success(x)
    case Blank => Success(0.0)
    case NotANumber => Failure(NotAFloat)
  }

  /**
   * Stores `value` in display units; when a prefix is given it must be in the
   * table, and otherwise nothing changes and InvalidPrefix is raised.
   */
  function Set(v: PrefixNumber, value: real, prefix: Option<string>): (r: Result<PrefixNumber, VarError>)
    ensures r.Failure? <==> prefix.Some? && !IsPrefix(prefix.value)
    ensures r.Failure? ==> r.error == InvalidPrefix(prefix.value)
    ensures r.Success? ==> Get(r.value) == Success(value)
    ensures r.Success? ==> r.value.prefix == prefix.ValueOr(v.prefix)
  {
    match prefix
    case None => Success(v.(content := Number(value)))
    case Some(p) =>
      if !IsPrefix(p) then Failure(InvalidPrefix(p))
      else Success(PrefixNumber(Number(value), p))
  }

  /** The value in absolute units: the display value times the prefix's scale. */
  function GetAbsolute(v: PrefixNumber): (r: Result<real, VarError>)
    ensures r.Success? <==> Readable(v)
    ensures r.Success? ==> r.value == Get(v).value * Scale(v.prefix)
    ensures v.content.NotANumber? ==> r == Failure(NotAFloat)
    ensures !v.content.NotANumber? && !IsPrefix(v.prefix) ==> r == Failure(UnknownPrefix(v.prefix))
  {
    match Get(v)
    case Failure(e) => Failure(e)
    case Success(x) =>
      if !IsPrefix(v.prefix) then Failure(UnknownPrefix(v.prefix))
      else Success(x * Scale(v.prefix))
  }

  /**
   * Stores an absolute value, keeping the prefix: the display value becomes
   * `x` divided by the prefix's scale, so reading the absolute value back
   * gives `x` exactly.
   */
  function SetAbsolute(v: PrefixNumber, x: real): (r: Result<PrefixNumber, VarError>)
    ensures r.Success? <==> IsPrefix(v.prefix)
    ensures r.Failure? ==> r.error == UnknownPrefix(v.prefix)
    ensures r.Success? ==> r.value.prefix == v.prefix
    ensures r.Success? ==> GetAbsolute(r.value) == Success(x)
  {
    if !IsPrefix(v.prefix) then Failure(UnknownPrefix(v.prefix))
    else
      var s := Scale(v.prefix);
      var r := Set(v, x / s, None);
      assert r.value.prefix == v.prefix && Get(r.value) == Success(x / s);
      assert x / s * s == x;
      r
  }

  /** The prefix table has exactly the eight SI prefixes from pico to giga. */
  lemma PrefixTable()
    ensures PrefixExponents.Keys == {"pico", "nano", "micro", "milli", "", "kilo", "mega", "giga"}
    ensures |PrefixExponents| == 8
    ensures forall p :: IsPrefix(p) ==> Scale(p) > 0.0
  {
  }

  /** The scale of each prefix is its power of ten. */
  lemma PrefixScales()
    ensures Scale("pico") == 0.000000000001
    ensures Scale("nano") == 0.000000001
    ensures Scale("micro") == 0.000001
    ensures Scale("milli") == 0.001
    ensures Scale("") == 1.0
    ensures Scale("kilo") == 1000.0
    ensures Scale("mega") == 1000000.0
    ensures Scale("giga") == 1000000000.0
  {
  }

  /** Setting a display value with a prefix gives that value times the prefix's scale in absolute units. */
  lemma SetThenGetAbsolute(v: PrefixNumber, value: real, p: string)
    requires IsPrefix(p)
    ensures Set(v, value, Some(p)).Success?
    ensures GetAbsolute(Set(v, value, Some(p)).value) == Success(value * Scale(p))
  {
  }

  /** Writing back the absolute value just read leaves the absolute value and the prefix as they were. */
  lemma AbsoluteRoundTrip(v: PrefixNumber)
    requires Readable(v)
    ensures SetAbsolute(v, GetAbsolute(v).value).Success?
    ensures GetAbsolute(SetAbsolute(v, GetAbsolute(v).value).value) == GetAbsolute(v)
    ensures SetAbsolute(v, GetAbsolute(v).value).value.prefix == v.prefix
  {
  }
}

=== FILE: widgets.dfy ===
/**
 * The Numberbox: a spin box whose validation command checks every keystroke
 * against a numeric grammar with bounds and a decimal precision, and checks
 * the finished text when the box loses focus.
 */
module Widgets {
  import opened Wrappers
  import opened Decimals

  /** The characters a keystroke may insert, in the order the validator lists them. */
  const KeyChars: string := "-1234567890."

  /** Python's `t in s` on strings: t occurs in s as a contiguous piece. */
  predicate IsSubstring(t: string, s: string) {
    exists i :: 0 <= i <= |s| - |t| && OccursAt(t, s, i)
  }

  predicate OccursAt(t: string, s: string, i: int)
    requires 0 <= i <= |s| - |t|
  {
    s[i..i + |t|] == t
  }

  /**
   * The bounds and precision of a number box: None for the minimum is
   * -Infinity and None for the maximum is Infinity; the precision is the
   * exponent of the normalized increment.
   */
  datatype Numberbox = Numberbox(min: Option<Dec>, max: Option<Dec>, precision: int)

  /** Decimal('1.0'), the increment of a box built without one. */
  const DefaultIncrement: Dec := Dec(false, 10, -1)

  /**
   * Numberbox.__init__: the minimum and maximum are taken from `from_` and
   * `to`, and the precision from the increment: it is negative exactly when
   * the increment is fractional. For a non-zero increment it is minus the
   * number of decimal places, or the number of trailing zeros of a whole
   * increment (1 for 10, 2 for 100); for a zero increment it is 0.
   */
  function NewNumberbox(from: Option<Dec>, to: Option<Dec>, increment: Option<Dec>): (b: Numberbox)
    ensures b.min == from && b.max == to
    ensures b.precision >= 0 <==> IsWhole(increment.ValueOr(DefaultIncrement))
    ensures increment.ValueOr(DefaultIncrement).coefficient != 0 ==>
      && IsWhole(Shift(increment.ValueOr(DefaultIncrement), -b.precision))
      && !IsWhole(Shift(increment.ValueOr(DefaultIncrement), -b.precision - 1))
    ensures increment.ValueOr(DefaultIncrement).coefficient == 0 ==> b.precision == 0
  {
    var inc := increment.ValueOr(DefaultIncrement);
    NormalizedExponentWhole(inc);
    if inc.coefficient != 0 then
      DecimalPlaces(inc);
      Numberbox(from, to, Normalize(inc).exponent)
    else
      Numberbox(from, to, Normalize(inc).exponent)
  }

  /**
   * A whole increment with trailing zeros gives a positive precision: with
   * increment 10 the precision is 1, and since a typed number's exponent is
   * never positive, even "50" is refused.
   */
  lemma IncrementTenRefusesDigits()
    ensures NewNumberbox(None, None, Some(Dec(false, 10, 0))).precision == 1
    ensures KeyValidate(NewNumberbox(None, None, Some(Dec(false, 10, 0))), "50", "5", "0", 1, Insert) == Reject
  {
    assert OccursAt("0", KeyChars, 10);
    assert Render(false, "50", None) == "50";
    ParseRender(false, "50", None);
    PartialTexts("50");
  }

  /** The value boxes of the forms: from_=0, increment=.01. */
  function EntryBox(): Numberbox {
    NewNumberbox(Some(Dec(false, 0, 0)), None, Some(Dec(false, 1, -2)))
  }

  /** The read-only answer box: no bounds and the default increment. */
  function AnswerBox(): Numberbox {
    NewNumberbox(None, None, None)
  }

  /** The minimum is at least zero, so no minus sign may be typed. */
  predicate NoNegative(b: Numberbox) {
    b.min.Some? && Value(b.min.value) >= 0.0
  }

  /** The increment is whole, so no decimal point may be typed. */
  predicate NoDecimal(b: Numberbox) {
    b.precision >= 0
  }

  predicate AboveMax(b: Numberbox, d: Dec) {
    b.max.Some? && Value(d) > Value(b.max.value)
  }

  /** Tk's %d: an insertion, a deletion, or a forced revalidation. */
  datatype Action = Insert | Delete | Revalidate

  /** What the validation command does: accept, reject, or raise (Decimal's InvalidOperation escapes). */
  datatype Verdict = Accept | Reject | Raise

  /**
   * The first filter of a keystroke: the inserted text is not a piece of
   * "-1234567890.", or it is a minus where none may go, or it is a point
   * where none may go.
   */
  predicate KeystrokeRefused(b: Numberbox, current: string, key: string, index: int) {
    || !IsSubstring(key, KeyChars)
    || (key == "-" && (NoNegative(b) || index != 0))
    || (key == "." && (NoDecimal(b) || '.' in current))
  }

  /** The proposed text is a number within the maximum with no more fraction digits than the precision allows. */
  predicate InBounds(b: Numberbox, proposed: string) {
    && Parse(proposed).Some?
    && !AboveMax(b, Parse(proposed).value)
    && Parse(proposed).value.exponent >= b.precision
  }

  /**
   * Numberbox._key_validate: deletions always pass; then the keystroke
   * filter; then the partial texts "", "-", "." and "-." pass; then the text
   * is parsed and checked against the maximum and the precision.
   */
  function KeyValidate(b: Numberbox, proposed: string, current: string, key: string, index: int, action: Action): (v: Verdict)
    ensures action == Delete ==> v == Accept
    ensures action != Delete && KeystrokeRefused(b, current, key, index) ==> v == Reject
    ensures action != Delete && !KeystrokeRefused(b, current, key, index) ==>
      (v == Accept <==> IsSubstring(proposed, "-.") || InBounds(b, proposed))
    ensures v == Raise <==>
      && action != Delete
      && !KeystrokeRefused(b, current, key, index)
      && !IsSubstring(proposed, "-.")
      && Parse(proposed).None?
  {
    if action == Delete then Accept
    else if KeystrokeRefused(b, current, key, index) then Reject
    else if IsSubstring(proposed, "-.") then Accept
    else
      match Parse(proposed)
      case None => Raise
      case Some(d) => if AboveMax(b, d) || d.exponent < b.precision then Reject else Accept
  }

  /**
   * The validator raises exactly when a keystroke passes the filter and
   * proposes a text that is neither a partial text nor a number Decimal
   * accepts.
   */
  lemma KeyValidateRaises(b: Numberbox, proposed: string, current: string, key: string, index: int, action: Action)
    ensures KeyValidate(b, proposed, current, key, index, action) == Raise <==>
      && action != Delete
      && !KeystrokeRefused(b, current, key, index)
      && proposed != "" && proposed != "-" && proposed != "." && proposed != "-."
      && !WellFormed(proposed)
  {
    PartialTexts(proposed);
    ParseWellFormed(proposed);
  }

  /** The partial texts the validator lets through unparsed are exactly "", "-", "." and "-.". */
  lemma PartialTexts(p: string)
    ensures IsSubstring(p, "-.") <==> p == "" || p == "-" || p == "." || p == "-."
  {
    var s := "-.";
    if p == "" {
      assert OccursAt(p, s, 0);
    } else if p == "-" {
      assert OccursAt(p, s, 0);
    } else if p == "." {
      assert OccursAt(p, s, 1);
    } else if p == "-." {
      assert OccursAt(p, s, 0);
    }
    if IsSubstring(p, s) {
      var i :| 0 <= i <= |s| - |p| && OccursAt(p, s, i);
      if i == 0 {
        assert p == s[..|p|];
      } else {
        assert p == s[1..1 + |p|];
      }
    }
  }

  /** None of the partial texts contains a digit. */
  lemma PartialTextsHaveNoDigit(p: string, k: int)
    requires 0 <= k < |p| && IsDigit(p[k])
    ensures !IsSubstring(p, "-.")
  {
    PartialTexts(p);
  }

  /** A single character passes the first test exactly when it is one of "-1234567890.". */
  lemma SingleKeyChars(c: char)
    ensures IsSubstring([c], KeyChars) <==> c in KeyChars
  {
    if c in KeyChars {
      var i :| 0 <= i < |KeyChars| && KeyChars[i] == c;
      assert KeyChars[i..i + 1] == [c];
      assert OccursAt([c], KeyChars, i);
    }
    if IsSubstring([c], KeyChars) {
      var i :| 0 <= i <= |KeyChars| - 1 && OccursAt([c], KeyChars, i);
      assert KeyChars[i] == KeyChars[i..i + 1][0] == c;
    }
  }

  /**
   * Typing a number with a point and fraction digits that passes the
   * keystroke filter is accepted exactly when it has no more fraction digits
   * than minus the precision and does not exceed the maximum.
   */
  lemma FractionDigitsLimit(b: Numberbox, negative: bool, whole: string, fraction: string, current: string, key: string, index: int)
    requires AllDigits(whole) && AllDigits(fraction) && |whole| + |fraction| > 0
    requires !KeystrokeRefused(b, current, key, index)
    ensures var proposed := Render(negative, whole, Some(fraction));
      var d := FromParts(negative, whole, fraction);
      (KeyValidate(b, proposed, current, key, index, Insert) == Accept <==>
        |fraction| <= -b.precision && !AboveMax(b, d))
  {
    ParseRender(negative, whole, Some(fraction));
    RenderedNotPartial(negative, whole, fraction);
  }

  /** A rendered number with some digit is never one of the partial texts. */
  lemma RenderedNotPartial(negative: bool, whole: string, fraction: string)
    requires AllDigits(whole) && AllDigits(fraction) && |whole| + |fraction| > 0
    ensures !IsSubstring(Render(negative, whole, Some(fraction)), "-.")
  {
    var proposed := Render(negative, whole, Some(fraction));
    var k := (if negative then 1 else 0) + (if |whole| > 0 then 0 else 1);
    RenderLayout(negative, whole, Some(fraction));
    if |whole| > 0 {
      assert proposed[k] == whole[0];
    } else {
      assert proposed[k] == fraction[0];
    }
    PartialTextsHaveNoDigit(proposed, k);
  }

  /** The error text a validation leaves in the box's error variable. */
  datatype FieldError = NoError | InvalidNumber | TooLow(min: Dec)

  /**
   * Numberbox._focusout_validate: the text must parse ("Invalid number
   * string" otherwise) and must not be below the minimum ("Value is too
   * low" otherwise). The maximum is not checked here.
   */
  function FocusOutValidate(b: Numberbox, text: string): (r: (bool, FieldError))
    ensures r.0 <==> r.1 == NoError
    ensures r.1 == InvalidNumber <==> !WellFormed(text)
    ensures r.1.TooLow? <==> WellFormed(text) && b.min.Some? && Value(Parse(text).value) < Value(b.min.value)
    ensures r.1.TooLow? ==> r.1.min == b.min.value
  {
    ParseWellFormed(text);
    match Parse(text)
    case None => (false, InvalidNumber)
    case Some(d) =>
      if b.min.Some? && Value(d) < Value(b.min.value) then (false, TooLow(b.min.value))
      else (true, NoError)
  }

  /** Focus-out validation does not depend on the maximum. */
  lemma FocusOutIgnoresMax(b: Numberbox, text: string, max: Option<Dec>)
    ensures FocusOutValidate(b.(max := max), text) == FocusOutValidate(b, text)
  {
  }

  /** Tk's %V: the event that caused the validation. */
  datatype Event = Key | FocusIn | FocusOut | Forced

  /**
   * The outcome of one call of the validation command: its verdict, the
   * error text it leaves, and whether the box is drawn in red (the invalid
   * command's reaction to a refused focus-out).
   */
  datatype Validation = Validation(verdict: Verdict, error: FieldError, red: bool)

  /**
   * ValidatedMixin._validate: clears the error and the red colour, sends
   * focus-out events to the focus-out check (on the box's text, `current`)
   * and key events to the keystroke check, and accepts every other event.
   * When the verdict is a refusal, ValidatedMixin._invalid turns the box red
   * for a focus-out and does nothing for a keystroke. Keystrokes go to the
   * corrected check, so no validation raises.
   */
  function Validate(b: Numberbox, proposed: string, current: string, key: string, event: Event, index: int, action: Action): (v: Validation)
    ensures v.verdict != Raise
    ensures event != FocusOut ==> v.error == NoError
    ensures event == Key ==> v.verdict == KeyValidateCorrected(b, proposed, current, key, index, action)
    ensures event == FocusOut ==> (v.verdict == Accept <==> FocusOutValidate(b, current).0)
    ensures event == FocusOut ==> v.error == FocusOutValidate(b, current).1
    ensures event != Key && event != FocusOut ==> v.verdict == Accept
    ensures v.red <==> event == FocusOut && v.verdict == Reject
  {
    match event
    case FocusOut =>
      var (ok, error) := FocusOutValidate(b, current);
      Validation(if ok then Accept else Reject, error, !ok)
    case Key => Validation(KeyValidateCorrected(b, proposed, current, key, index, action), NoError, false)
    case _ => Validation(Accept, NoError, false)
  }

  /** The number boxes of the forms: minimum 0, no maximum, two decimal places, no minus sign. */
  lemma BoxesOfTheForms()
    ensures EntryBox().precision == -2 && NoNegative(EntryBox()) && !NoDecimal(EntryBox())
    ensures EntryBox().max.None?
    ensures AnswerBox().precision == 0 && AnswerBox().min.None? && AnswerBox().max.None?
  {
  }

  /** A form's number box refuses a typed minus sign anywhere. */
  lemma EntryBoxRefusesMinus(proposed: string, current: string, index: int)
    ensures KeyValidate(EntryBox(), proposed, current, "-", index, Insert) == Reject
  {
  }

  /** A form's number box refuses a second decimal point. */
  lemma EntryBoxRefusesSecondPoint(proposed: string, current: string, index: int)
    requires '.' in current
    ensures KeyValidate(EntryBox(), proposed, current, ".", index, Insert) == Reject
  {
  }

  /**
   * A digit typed into a form's number box, giving a number with a point,
   * is accepted exactly when the number has at most two fraction digits.
   */
  lemma EntryBoxTwoPlaces(negative: bool, whole: string, fraction: string, current: string, digit: char, index: int)
    requires AllDigits(whole) && AllDigits(fraction) && |whole| + |fraction| > 0
    requires IsDigit(digit)
    ensures KeyValidate(EntryBox(), Render(negative, whole, Some(fraction)), current, [digit], index, Insert) == Accept
      <==> |fraction| <= 2
  {
    SingleKeyChars(digit);
    assert digit in KeyChars;
    FractionDigitsLimit(EntryBox(), negative, whole, fraction, current, [digit], index);
  }

  /** "12.34" is accepted as its last digit is typed. */
  lemma EntryBoxAcceptsCents()
    ensures KeyValidate(EntryBox(), "12.34", "12.3", "4", 4, Insert) == Accept
  {
    assert Render(false, "12", Some("34")) == "12.34";
    EntryBoxTwoPlaces(false, "12", "34", "12.3", '4', 4);
  }

  /** "12.345" is refused as its last digit is typed. */
  lemma EntryBoxRefusesThirdPlace()
    ensures KeyValidate(EntryBox(), "12.345", "12.34", "5", 5, Insert) == Reject
  {
    assert Render(false, "12", Some("345")) == "12.345";
    EntryBoxTwoPlaces(false, "12", "345", "12.34", '5', 5);
  }

  /** Every character of `key` is one of "-1234567890.". */
  predicate AllKeyChars(key: string) {
    forall i :: 0 <= i < |key| ==> key[i] in KeyChars
  }

  /**
   * The keystroke check as intended: every inserted character must be
   * allowed, a minus sign anywhere in the inserted text counts as a minus
   * sign, and so does a point; a text that is still not a number is refused
   * rather than left to raise.
   */
  function KeyValidateCorrected(b: Numberbox, proposed: string, current: string, key: string, index: int, action: Action): (v: Verdict)
    ensures v != Raise
    ensures action != Delete && ('-' in key && NoNegative(b)) ==> v == Reject
    ensures action != Delete && v == Accept ==> IsSubstring(proposed, "-.") || InBounds(b, proposed)
  {
    if action == Delete then Accept
    else if
      || !AllKeyChars(key)
      || ('-' in key && (NoNegative(b) || index != 0))
      || ('.' in key && (NoDecimal(b) || '.' in current))
    then Reject
    else if IsSubstring(proposed, "-.") then Accept
    else
      match Parse(proposed)
      case None => Reject
      case Some(d) => if AboveMax(b, d) || d.exponent < b.precision then Reject else Accept
  }

  /**
   * In a box with a minimum of at least zero, inserting into a text without
   * a minus sign can never produce one.
   */
  lemma CorrectedKeepsSignOut(b: Numberbox, current: string, key: string, index: int)
    requires NoNegative(b) && '-' !in current && 0 <= index <= |current|
    requires KeyValidateCorrected(b, current[..index] + key + current[index..], current, key, index, Insert) == Accept
    ensures '-' !in current[..index] + key + current[index..]
  {
    var proposed := current[..index] + key + current[index..];
    forall i | 0 <= i < |proposed| ensures proposed[i] != '-' {
      if i < index {
        assert proposed[i] == current[i];
      } else if i < index + |key| {
        assert proposed[i] == key[i - index];
      } else {
        assert proposed[i] == current[i - |key|];
      }
    }
  }

  /**
   * For a single typed character the corrected check agrees with the
   * original wherever the original does not raise.
   */
  lemma CorrectedAgreesOnSingleKeys(b: Numberbox, proposed: string, current: string, key: string, index: int, action: Action)
    requires |key| == 1
    requires KeyValidate(b, proposed, current, key, index, action) != Raise
    ensures KeyValidateCorrected(b, proposed, current, key, index, action) == KeyValidate(b, proposed, current, key, index, action)
  {
    SingleKeyChars(key[0]);
    assert key == [key[0]];
    assert AllKeyChars(key) <==> key[0] in KeyChars;
    assert '-' in key <==> key == "-";
    assert '.' in key <==> key == ".";
  }

  /**
   * As written, a box with minimum 0 accepts "-1" pasted at the start of an
   * empty text, because only a keystroke of exactly "-" is checked for a
   * minus sign; the corrected check refuses it.
   */
  lemma NegativePasteAccepted()
    ensures Parse("-1") == Some(Dec(true, 1, 0)) && Value(Dec(true, 1, 0)) < 0.0
    ensures NoNegative(EntryBox())
    ensures KeyValidate(EntryBox(), "-1", "", "-1", 0, Insert) == Accept
    ensures KeyValidateCorrected(EntryBox(), "-1", "", "-1", 0, Insert) == Reject
  {
    assert OccursAt("-1", KeyChars, 0);
    assert Render(true, "1", None) == "-1";
    ParseRender(true, "1", None);
    PartialTexts("-1");
    assert "-1"[0] == '-';
  }

  /**
   * As written, pasting "-1" after the "5" of a value box holding "5"
   * proposes "5-1", which
   * passes the keystroke filter and is not a number, so the Decimal
   * conversion raises; the corrected check refuses it.
   */
  lemma MinusPasteRaises()
    ensures KeyValidate(EntryBox(), "5-1", "5", "-1", 1, Insert) == Raise
    ensures KeyValidateCorrected(EntryBox(), "5-1", "5", "-1", 1, Insert) == Reject
  {
    assert OccursAt("-1", KeyChars, 0);
    PartialTexts("5-1");
    ParseWellFormed("5-1");
    assert "5-1"[1] == '-';
    assert "-1"[0] == '-';
  }
}

=== FILE: wrappers.dfy ===
/**
 * The two ways the model writes "an operation that may not produce a value":
 * Result for an operation that raises one of the program's errors, Option
 * for a lookup or a parse that simply finds nothing.
 */
module Wrappers {

  /**
   * Either the value an operation returned or the error it raised. The three
   * members below let `:-` stop at the first error and pass it on.
   */
  datatype Result<+R, +E> = Success(value: R) | Failure(error: E) {
    predicate IsFailure() {
      Failure?
    }

    function PropagateFailure<U>(): Result<U, E>
      requires Failure?
    {
      Failure(error)
    }

    function Extract(): R
      requires Success?
    {
      value
    }
  }

  /** Something present, or nothing; Python's optional argument left out. */
  datatype Option<+T> = None | Some(value: T) {
    /** What is present, or `fallback` in its place. */
    function ValueOr(fallback: T): T {
      if Some? then value else fallback
    }
  }
}
